=== FILE: README.md ===
# Message board and internal inbox of MyBlogs, in Dafny

This project models the decision logic of the blog's `MsgController`. That
controller runs the public message board and the owner's internal-message
inbox:

- **Posting a message** (`Submit`). First the ban pattern is checked against the
  nickname plus the raw content. Next the content is trimmed and the editor's
  empty paragraph `<p><br></p>` is removed. The duplicate guard then compares
  the content's tag-free, trimmed text with the text this session posted last.
  A message is published unless the moderation pattern matches, and always
  when the signed-in user is the admin; otherwise it stays Pending. An admin's
  message is also marked as the master's. After the row is saved:
  - the session remembers the stored (sanitised) text;
  - a published message by anyone but the master leaves one notice in the
    owner's inbox;
  - e-mail jobs are enqueued. A held message sends one "awaiting review" mail
    to the owner. A published root message sends one mail to the owner. A
    published reply mails every address in its thread plus the owner's, less
    the replier's own.
- **Approving a held message** (`Pass`). Only that message's status changes.
  The thread's participants are mailed, except the author and the approver.
- **Deleting a thread** (`Delete`), and the **pending list**.
- **The board listing** (`GetMsgs`).
- **The inbox**: `Read`, `Unread`, `DeleteMsg`, the unread list, `ClearMsgs`
  (delete every read notice) and `MarkRead(n)` (mark read every notice whose
  id is at most `n`).

Each request is a pure function. It takes the session, the two tables
(`Board`, `Inbox`: maps from id to row, plus the next id the database will
assign) and the request. It returns the response, the new session and tables,
and the sequence of `Mail(kind, recipient, cid)` jobs it enqueued.

The helpers whose code is not part of this model are parameters:
- the ban and moderation regular expressions, `RemoveHtmlTag`, the HTML
  sanitiser and `ClearImgAttributes` are the total functions of `Env`;
- the comment-tree queries (root of a message, and a message with all its
  descendants) are the functions of `ThreadService`;
- whether a database write succeeded is a boolean input.

The .NET helpers the controller relies on are modelled concretely:
- `String.Trim` uses the `char.IsWhiteSpace` set;
- `String.Replace(p, "")` deletes in one left-to-right pass;
- `Enumerable.Except` yields distinct elements in first-occurrence order.

The enqueue order is taken to be the order `Except` yields, so `ToHashSet`
is taken to enumerate its elements in insertion order. No contract depends
on that order.

The duplicate guard compares two texts. One is the text of the content before
sanitising. The other is the stored text, which is sanitised. A repeated
message is therefore refused only when sanitising keeps its plain text
(`ResubmitIsDuplicate`). `ResubmitPassesWhenSanitizerDropsText` shows a
sanitiser under which the same message is posted twice; "## Findings" lists
it with the corrected guard.

Modules: `Entities` (rows, tables, session, collaborators), `Text`, `Linq`,
`Notifications` (recipient sets), `LeaveMessages` (board requests) and
`InternalMessages` (inbox requests).

## Model

| member | source | states |
|---|---|---|
| Text.TrimStart | src/Masuit.MyBlogs.Core/Controllers/MsgController.cs:127 | the result is the suffix of the input left after the longest all-white-space prefix |
| Text.TrimEnd | src/Masuit.MyBlogs.Core/Controllers/MsgController.cs:127 | the result is the prefix of the input left before the longest all-white-space suffix |
| Text.Trim | src/Masuit.MyBlogs.Core/Controllers/MsgController.cs:127-128 | the result has no white space at either end and is the infix of the input left after removing white space at both ends |
| Text.TrimOfTrimmed | src/Masuit.MyBlogs.Core/Controllers/MsgController.cs:127 | trimming a string that has no white space at either end changes nothing |
| Text.TrimIdempotent | src/Masuit.MyBlogs.Core/Controllers/MsgController.cs:128 | trimming twice gives the same result as trimming once |
| Text.RemoveAll | src/Masuit.MyBlogs.Core/Controllers/MsgController.cs:127 | removing the empty paragraph never lengthens the content, and a result as long as the input is the input itself |
| Text.RemoveAllUnchanged | src/Masuit.MyBlogs.Core/Controllers/MsgController.cs:127 | the removal leaves the content unchanged exactly when the empty paragraph does not occur in it |
| Text.RemoveAllAtFirst | src/Masuit.MyBlogs.Core/Controllers/MsgController.cs:127 | the removal keeps everything before the first occurrence of the paragraph, drops that occurrence and carries on after it; with `RemoveAllUnchanged` this determines the result |
| Linq.Except | src/Masuit.MyBlogs.Core/Controllers/MsgController.cs:187 | the result has no duplicates, and its set is the input's set minus the excluded set |
| Linq.NoDuplicatesCardinality | src/Masuit.MyBlogs.Core/Controllers/MsgController.cs:189-192 | a sequence without duplicates has as many elements as its set |
| Linq.ExceptCardinality | src/Masuit.MyBlogs.Core/Controllers/MsgController.cs:187-192 | `Except` yields exactly one element per surviving distinct value |
| Notifications.ReplyRecipients | src/Masuit.MyBlogs.Core/Controllers/MsgController.cs:186-187 | reply recipients: no duplicates; the set is (thread addresses ∪ {owner}) − {replier} |
| Notifications.ApprovalRecipients | src/Masuit.MyBlogs.Core/Controllers/MsgController.cs:219 | approval recipients: no duplicates; the set is thread addresses − {author, approver}; the owner is not added |
| Notifications.MailsTo | src/Masuit.MyBlogs.Core/Controllers/MsgController.cs:189-192 | one job per recipient, in order, each with the given subject kind and link |
| Notifications.ReplyRecipientsCount | src/Masuit.MyBlogs.Core/Controllers/MsgController.cs:187-192 | the number of reply jobs equals the number of distinct recipients |
| Notifications.ApprovalRecipientsCount | src/Masuit.MyBlogs.Core/Controllers/MsgController.cs:219-224 | the number of approval jobs equals the number of distinct recipients |
| Notifications.OwnerNotifiedOfReply | src/Masuit.MyBlogs.Core/Controllers/MsgController.cs:187 | the owner is among the reply recipients unless the owner is the replier |
| Notifications.AuthorNeverNotified | src/Masuit.MyBlogs.Core/Controllers/MsgController.cs:187 | the author is never mailed about their own message, and the approver is never mailed about an approval |
| LeaveMessages.Normalize | src/Masuit.MyBlogs.Core/Controllers/MsgController.cs:127 | definition: the content trimmed, then rid of every empty paragraph `<p><br></p>` |
| LeaveMessages.NormalizeShortens | src/Masuit.MyBlogs.Core/Controllers/MsgController.cs:127 | normalising never lengthens the content |
| LeaveMessages.NormalizeOfNormal | src/Masuit.MyBlogs.Core/Controllers/MsgController.cs:127 | content with no white space at either end and no empty paragraph is left as it is |
| LeaveMessages.PlainText | src/Masuit.MyBlogs.Core/Controllers/MsgController.cs:128 | the text the duplicate guard compares and the session stores: tags removed, then trimmed, so it has no white space at either end |
| LeaveMessages.Sanitized | src/Masuit.MyBlogs.Core/Controllers/MsgController.cs:153 | definition: the stored content is the sanitiser's output with image attributes cleared |
| LeaveMessages.PostedText | src/Masuit.MyBlogs.Core/Controllers/MsgController.cs:127-128 | definition: the guard text as written, the plain text of the normalised content before sanitising |
| LeaveMessages.StoredText | src/Masuit.MyBlogs.Core/Controllers/MsgController.cs:153-163 | definition: the text the session stores, the plain text of the sanitised normalised content |
| LeaveMessages.Draft | src/Masuit.MyBlogs.Core/Controllers/MsgController.cs:133-153 | Published exactly when the moderation match (on the posted nickname and normalised content) is empty or the user is admin; master exactly for an admin; a signed-in user's identity replaces the posted one; content is sanitised |
| LeaveMessages.Effects | src/Masuit.MyBlogs.Core/Controllers/MsgController.cs:164-202 | a published non-master message adds one inbox notice linking to it, otherwise the inbox is unchanged; held: one review mail to the owner; published root: one mail to the owner; published reply: one reply mail per distinct address of (thread ∪ {owner}) − {replier} |
| LeaveMessages.Post | src/Masuit.MyBlogs.Core/Controllers/MsgController.cs:133-202 | the board gains exactly the new row under the next id and nothing else changes; the session keeps the stored text; the new row's parent, content, status and master flag are as `Draft` says, and its nickname, e-mail and contact are the signed-in user's, or else the posted ones; a live post by someone other than the admin adds exactly one unread inbox notice under the next id, keeps every earlier notice and advances the counter, any other post leaves the inbox as it is; mails as `Effects` says; table invariants are kept |
| LeaveMessages.Submit | src/Masuit.MyBlogs.Core/Controllers/MsgController.cs:118-161 | a ban match refuses first and changes nothing; then a duplicate of the session's last text refuses and changes nothing; otherwise a failed save answers `SaveFailed` and changes nothing; the message is posted exactly when none of the three applies |
| LeaveMessages.ResubmitIsDuplicate | src/Masuit.MyBlogs.Core/Controllers/MsgController.cs:127-163 | posting the same message again in the same session is refused as a duplicate, when sanitising keeps its plain text |
| LeaveMessages.SubmitStored | src/Masuit.MyBlogs.Core/Controllers/MsgController.cs:128-163 | corrected guard: compares the session's text with the plain text of the sanitised content, the same text line 163 stores; posted exactly when not banned, not that text and saved |
| LeaveMessages.ResubmitStoredIsDuplicate | src/Masuit.MyBlogs.Core/Controllers/MsgController.cs:128-163 | with the corrected guard, a message posted once is refused as a duplicate when posted again in the same session, whatever the sanitiser |
| LeaveMessages.ResubmitPassesWhenSanitizerDropsText | src/Masuit.MyBlogs.Core/Controllers/MsgController.cs:127-163 | with a sanitiser that removes text, the same message is posted twice in one session |
| LeaveMessages.FreshSessionPosts | src/Masuit.MyBlogs.Core/Controllers/MsgController.cs:120-131 | with no remembered message, a saved, unbanned message is always posted |
| LeaveMessages.Pass | src/Masuit.MyBlogs.Core/Controllers/MsgController.cs:211-227 | an unknown id fails; only the target's status changes, to Published; success exactly when it was Pending; the thread's addresses minus {author, approver} are mailed once each, linking to the thread root |
| LeaveMessages.PendingComments | src/Masuit.MyBlogs.Core/Controllers/MsgController.cs:246-254 | the pending list holds exactly the Pending messages, unchanged |
| LeaveMessages.PassLeavesOtherPending | src/Masuit.MyBlogs.Core/Controllers/MsgController.cs:213-215 | approving a message removes exactly that message from the pending list |
| LeaveMessages.PassTwice | src/Masuit.MyBlogs.Core/Controllers/MsgController.cs:213-226 | a second approval leaves the table unchanged and reports failure |
| LeaveMessages.Delete | src/Masuit.MyBlogs.Core/Controllers/MsgController.cs:235-239 | a successful delete removes exactly the listed thread's ids; other rows are unchanged; a failed delete changes nothing |
| LeaveMessages.VisibleOnly | src/Masuit.MyBlogs.Core/Controllers/MsgController.cs:92 | keeps exactly the messages the reader may see; an admin sees all |
| LeaveMessages.VisibleRoots | src/Masuit.MyBlogs.Core/Controllers/MsgController.cs:86 | keeps exactly the root messages the reader may see, with no repeats when the table has none |
| LeaveMessages.VisibleRootsCount | src/Masuit.MyBlogs.Core/Controllers/MsgController.cs:86-91 | over a table without repeated rows, the number of visible roots is the number of rows the root query matches, the count reported as `TotalCount` |
| LeaveMessages.PageOf | src/Masuit.MyBlogs.Core/Controllers/MsgController.cs:86 | the page is the run of at most `size` elements from `start`, shorter only at the end, and empty exactly when `start` is past the end |
| LeaveMessages.Threads | src/Masuit.MyBlogs.Core/Controllers/MsgController.cs:92 | every row is visible and belongs to the thread of one of the given roots; every visible message of those threads is a row |
| LeaveMessages.PageRows | src/Masuit.MyBlogs.Core/Controllers/MsgController.cs:86-96 | `PageShows`: the rows are exactly the visible messages of the threads of the roots on the requested page |
| LeaveMessages.Listed | src/Masuit.MyBlogs.Core/Controllers/MsgController.cs:86-109 | fails exactly when the page has no visible root; otherwise total and parent total are the number of visible roots, which over a table without repeated rows is the number of matching rows, and the rows are as `PageShows` says |
| LeaveMessages.GetMsgs | src/Masuit.MyBlogs.Core/Controllers/MsgController.cs:61-110 | a `cid` whose thread is not empty returns that whole thread with total 1; otherwise the paged listing as `Listed` says: the same failure, total and `PageShows` rows |
| LeaveMessages.CidLookupShowsPending | src/Masuit.MyBlogs.Core/Controllers/MsgController.cs:64-84 | as written, a visitor's `cid` lookup returns a Pending reply |
| LeaveMessages.GetMsgsVisible | src/Masuit.MyBlogs.Core/Controllers/MsgController.cs:64-109 | with the visibility rule applied to the `cid` lookup too, every row is visible to the reader, and a thread with a visible message is listed with total 1 |
| LeaveMessages.AdminListingUnchanged | src/Masuit.MyBlogs.Core/Controllers/MsgController.cs:64-109 | for an admin the corrected listing equals the listing as written |
| InternalMessages.Add | src/Masuit.MyBlogs.Core/Controllers/MsgController.cs:170-175 | adds exactly one unread notice under the next id and advances the counter; nothing stored changes; the table invariant is kept |
| InternalMessages.Read | src/Masuit.MyBlogs.Core/Controllers/MsgController.cs:265-271 | an unknown id fails; otherwise only that notice's flag changes, to read |
| InternalMessages.Unread | src/Masuit.MyBlogs.Core/Controllers/MsgController.cs:279-285 | an unknown id fails; otherwise only that notice's flag changes, to unread |
| InternalMessages.UnreadUndoesRead | src/Masuit.MyBlogs.Core/Controllers/MsgController.cs:265-285 | marking an unread notice read and then unread restores the inbox |
| InternalMessages.ReadIdempotent | src/Masuit.MyBlogs.Core/Controllers/MsgController.cs:265-271 | reading twice is reading once |
| InternalMessages.ReadUnreadCommute | src/Masuit.MyBlogs.Core/Controllers/MsgController.cs:265-285 | flag changes on different notices commute |
| InternalMessages.DeleteMsg | src/Masuit.MyBlogs.Core/Controllers/MsgController.cs:293-297 | reports success exactly when the id was present; removes exactly that notice |
| InternalMessages.UnreadMsgs | src/Masuit.MyBlogs.Core/Controllers/MsgController.cs:317-321 | exactly the unread notices, unchanged |
| InternalMessages.ClearMsgs | src/Masuit.MyBlogs.Core/Controllers/MsgController.cs:328-332 | removes exactly the read notices and keeps the others unchanged |
| InternalMessages.ClearLeavesUnread | src/Masuit.MyBlogs.Core/Controllers/MsgController.cs:317-332 | after clearing, the inbox is exactly the unread list |
| InternalMessages.ClearIdempotent | src/Masuit.MyBlogs.Core/Controllers/MsgController.cs:328-332 | clearing twice is clearing once |
| InternalMessages.MarkedReadUpTo | src/Masuit.MyBlogs.Core/Controllers/MsgController.cs:340-350 | notices with id ≤ n become read; notices with id > n are unchanged; no notice is added or removed |
| InternalMessages.MarkRead | src/Masuit.MyBlogs.Core/Controllers/MsgController.cs:340-350 | the loop over the selected notices gives exactly the bulk update `MarkedReadUpTo` |
| InternalMessages.MarkReadIdempotent | src/Masuit.MyBlogs.Core/Controllers/MsgController.cs:340-350 | marking read up to n twice is marking once |
| InternalMessages.MarkReadTwice | src/Masuit.MyBlogs.Core/Controllers/MsgController.cs:340-350 | marking up to a and then up to b is marking up to the larger of the two |
| InternalMessages.MarkReadThenClear | src/Masuit.MyBlogs.Core/Controllers/MsgController.cs:328-350 | clearing after marking read up to n leaves only notices with id > n |

## Findings

| source | as written | input that shows it | evidently intended | confidence | as-written member | corrected member |
|---|---|---|---|---|---|---|
| src/Masuit.MyBlogs.Core/Controllers/MsgController.cs:64-84 | the `cid` lookup returns the whole thread without the visibility filter the paged branch applies at lines 86 and 92 | a visitor (not admin) requests `cid` = 2, and the thread holds reply 2 with status Pending | a visitor sees only Published messages, as in the paged branch | medium, not executed | LeaveMessages.CidLookupShowsPending | LeaveMessages.GetMsgsVisible |
| src/Masuit.MyBlogs.Core/Controllers/MsgController.cs:128-163 | the duplicate guard compares the plain text of the content before sanitising (line 128) with the plain text of the sanitised content the session stores (line 163) | a sanitiser that changes the text, e.g. one that removes all of it: the same message "hi" is posted twice in one session | the same message posted twice in one session is refused | low, not executed | LeaveMessages.ResubmitPassesWhenSanitizerDropsText | LeaveMessages.ResubmitStoredIsDuplicate |

`GetMsgs` stays as written. `GetMsgsVisible` is the corrected listing.
`Submit` stays as written. `SubmitStored` is the corrected request: the same
steps, with the guard comparing the stored text (`StoredText`) instead of
the posted one (`PostedText`).

## Left out

- Subtree and root lookup (`GetSelfAndAllChildrenMessagesByParentId`, `GetParentMessageIdByChildId`): abstract functions of `ThreadService`. Their code is in a service that is not part of this model. The model takes no view on whether a thread contains the message just saved.
- Regular-expression contents, `RemoveHtmlTag`, `HtmlSantinizerStandard`, `ClearImgAttributes`: parameters in `Env`. They are external library or configuration code.
- The default status of a freshly mapped `LeaveMessage` is taken to be Pending. The entity is not part of this model.
- ORM paging order and row ordering: the listing takes the table as a sequence already in its newest-first order. The unread list and the pending list are maps, without order or paging. `GetInternalMsgs` (a plain paged listing of every notice) is left out for the same reason.
- `Index`: a count for the view plus view selection; framework plumbing.
- Timezone conversion of `PostDate`, the post time, IP address, location and browser fields, mapping to view models, response caching: framework plumbing.
- Hangfire jobs, mail sending, template reading and rendering: each job is a `Mail(kind, recipient, cid)` record; the mail body is not modelled.
- Logging of the matched banned word.
- `[MyAuthorize]` and anti-forgery checks. The `[Range]` bounds on `page` and `size` are preconditions, because validation rejects other values before the action runs.
- Null strings: a missing nickname, content or e-mail address is not modelled, and addresses are plain strings.
- Database failures: the insert of `Submit` and the bulk delete of `Delete` take their success as an input. The owner's inbox notice inserted at line 170 is always taken to be saved (`Effects` always adds it; the controller ignores that insert's result). `DeleteByIdSaved` at line 295 is taken to succeed exactly when the id is present (`DeleteMsg`). `Pass` reports success when a row changed, which is when the status was Pending. An unknown id in `Pass`, `Read` or `Unread` is the `NotFound` failure where the controller would dereference null.
- Ids assigned by the database are modelled as a counter (`nextId`).
- Links in notices and mails are the message id (`cid`); the URL that `Url.Action` builds from it is framework plumbing.
- The debug build, in which a published message in `Submit` (lines 177-194) and every approval in `Pass` (lines 216-225) send no mail: only the release build is modelled. The held-message mail of lines 198-201 is sent in both builds.
- `PostMergeRequestOutputDto`: a property-only DTO with no behaviour.
- LeaveMessages.GetMsgs: does not state the order of the rows, only which messages they are.
- LeaveMessages.Listed: assumes that `GetPagesNoTracking` skips `(page - 1) * size` roots and takes `size`, with an empty page past the end and no 32-bit overflow. That helper is not part of this model. If it clamps `page` to the last page, or wraps `(page - 1) * size` in 32-bit arithmetic for a large `page`, the failure condition "no visible root on the page" does not hold as stated.
- LeaveMessages.VisibleRootsCount: the row count is stated for a table without repeated rows. Rows of the table are distinct, because their ids are.

=== FILE: board.dfy ===
/** The public message board: posting a leave-message, approving a held
    one, deleting a thread, and the listings. Each request is a pure step
    from the current session and tables to a response, the new session and
    tables, and the e-mail jobs it enqueues. */
module LeaveMessages {
  import opened Entities
  import opened Text
  import opened Linq
  import opened Notifications
  import InternalMessages

  /** The empty paragraph the rich-text editor leaves behind. */
  const EmptyParagraph: string := "<p><br></p>"

  /** The status a freshly mapped leave-message has before moderation. */
  const DefaultStatus: Status := Pending

  const IntMax: int := 0x7fff_ffff

  const MaxPageSize: int := 50

  /** The posted content once trimmed and rid of every empty paragraph. */
  function Normalize(content: string): string {
    RemoveAll(Trim(content), EmptyParagraph)
  }

  /** Normalising never lengthens the content. */
  lemma NormalizeShortens(content: string)
    ensures |Normalize(content)| <= |content|
  {
    var t := Trim(content);
    var k :| 0 <= k <= |content| - |t| && t == content[k..][..|t|];
    assert |RemoveAll(t, EmptyParagraph)| <= |t|;
  }

  /** Content with no white space at either end and no empty paragraph is
      already normal. */
  lemma NormalizeOfNormal(content: string)
    requires Trimmed(content) && !Occurs(content, EmptyParagraph)
    ensures Normalize(content) == content
  {
    TrimOfTrimmed(content);
    RemoveAllUnchanged(content, EmptyParagraph);
  }

  /** The text the duplicate guard compares and stores: tags removed, trimmed. */
  function PlainText(env: Env, html: string): (r: string)
    ensures Trimmed(r)
  {
    Trim(env.removeHtmlTag(html))
  }

  /** The stored form of content: sanitised, then image attributes cleared. */
  function Sanitized(env: Env, content: string): string {
    env.clearImgAttributes(env.sanitize(content))
  }

  /** Title of the owner's inbox notice for a new message. */
  function NoticeTitle(nickName: string): string {
    "来自【" + nickName + "】的新留言"
  }

  /** The row `Submit` inserts, before the table assigns its id. The
      moderation pattern is matched against the posted nickname; a signed-in
      user's identity replaces the posted one, and an admin's message is
      published and marked as the master's. */
  function Draft(env: Env, user: Option<UserInfo>, cmd: LeaveMessageCommand, content: string): (c: Comment)
    ensures c.parentId == cmd.parentId
    ensures c.status == Published <==> env.modMatchLength(cmd.nickName + content) <= 0 || IsAdmin(user)
    ensures c.isMaster <==> IsAdmin(user)
    ensures c.content == Sanitized(env, content)
    ensures user.None? ==> c.nickName == cmd.nickName && c.email == cmd.email && c.qqOrWechat == cmd.qqOrWechat
    ensures user.Some? ==>
              c.nickName == user.value.nickName && c.email == user.value.email && c.qqOrWechat == user.value.qqOrWechat
  {
    var mapped := Comment(0, cmd.parentId, cmd.nickName, cmd.email, cmd.qqOrWechat, content, DefaultStatus, false);
    var moderated := if env.modMatchLength(cmd.nickName + content) <= 0 then mapped.(status := Published) else mapped;
    var attributed :=
      match user
      case None => moderated
      case Some(u) =>
        var named := moderated.(nickName := u.nickName, qqOrWechat := u.qqOrWechat, email := u.email);
        if u.isAdmin then named.(status := Published, isMaster := true) else named;
    attributed.(content := Sanitized(env, content))
  }

  /** The response of `Submit`; the last two report success. */
  datatype SubmitResponse =
    | BannedContent     // the ban pattern matched
    | DuplicateMessage  // same text as this session's previous message
    | SaveFailed        // the insert returned nothing
    | PostedLive        // saved and published
    | PostedForReview   // saved and held for moderation

  predicate Posted(r: SubmitResponse) {
    r.PostedLive? || r.PostedForReview?
  }

  datatype SubmitOutcome = SubmitOutcome(
    response: SubmitResponse,
    session: Session,
    board: Board,
    inbox: Inbox,
    enqueued: seq<Mail>)

  /** What saving `msg` sets off: the owner's inbox notice for a published
      message by someone else, and the e-mail jobs. */
  function Effects(svc: ThreadService, owner: string, msg: Comment, inbox: Inbox): (r: (Inbox, seq<Mail>))
    ensures msg.status == Published && !msg.isMaster ==>
              r.0 == InternalMessages.Add(inbox, NoticeTitle(msg.nickName), msg.content, msg.id)
    ensures msg.status != Published || msg.isMaster ==> r.0 == inbox
    ensures msg.status != Published ==> r.1 == [Mail(AwaitingReview, owner, msg.id)]
    ensures msg.status == Published && IsRoot(msg) ==> r.1 == [Mail(NewMessage, owner, msg.id)]
    ensures msg.status == Published && !IsRoot(msg) ==>
              && NoDuplicates(Recipients(r.1))
              && ToSet(Recipients(r.1)) == (EmailSet(svc.subtree(svc.rootOf(msg.id))) + {owner}) - {msg.email}
              && (forall m :: m in r.1 ==> m.kind == MessageReply && m.cid == msg.id)
  {
    if msg.status == Published then
      var inbox' := if msg.isMaster then inbox
                    else InternalMessages.Add(inbox, NoticeTitle(msg.nickName), msg.content, msg.id);
      if IsRoot(msg) then
        (inbox', [Mail(NewMessage, owner, msg.id)])
      else
        var to := ReplyRecipients(svc.subtree(svc.rootOf(msg.id)), owner, msg.email);
        RecipientsOfMailsTo(MessageReply, to, msg.id);
        (inbox', MailsTo(MessageReply, to, msg.id))
    else
      (inbox, [Mail(AwaitingReview, owner, msg.id)])
  }

  /** The saving half of `Submit`: inserts the drafted row under the next
      id, remembers its plain text in the session, and sets off its effects. */
  function Post(env: Env, svc: ThreadService, owner: string,
                session: Session, board: Board, inbox: Inbox, cmd: LeaveMessageCommand, content: string): (o: SubmitOutcome)
    ensures Posted(o.response)
    ensures board.nextId in o.board.comments
    ensures o.board.nextId == board.nextId + 1
    ensures o.board.comments == board.comments[board.nextId := o.board.comments[board.nextId]]
    ensures var c := o.board.comments[board.nextId];
            && c.id == board.nextId
            && c.parentId == cmd.parentId
            && c.content == Sanitized(env, content)
            && (c.status == Published <==> env.modMatchLength(cmd.nickName + content) <= 0 || IsAdmin(session.user))
            && (c.isMaster <==> IsAdmin(session.user))
            && (session.user.None? ==> c.nickName == cmd.nickName && c.email == cmd.email && c.qqOrWechat == cmd.qqOrWechat)
            && (session.user.Some? ==>
                  var u := session.user.value;
                  c.nickName == u.nickName && c.email == u.email && c.qqOrWechat == u.qqOrWechat)
            && (o.response.PostedLive? <==> c.status == Published)
            && o.session == session.(lastMsg := Some(PlainText(env, c.content)))
    ensures o.response.PostedLive? ==>
              var c := o.board.comments[board.nextId];
              && (!c.isMaster ==>
                    && o.inbox.nextId == inbox.nextId + 1
                    && o.inbox.msgs.Keys == inbox.msgs.Keys + {inbox.nextId}
                    && o.inbox.msgs[inbox.nextId] == InternalMessage(inbox.nextId, NoticeTitle(c.nickName), c.content, c.id, false)
                    && (forall k :: k in inbox.msgs && k != inbox.nextId ==> o.inbox.msgs[k] == inbox.msgs[k])
                    && (inbox.Valid() ==> |o.inbox.msgs| == |inbox.msgs| + 1))
              && (c.isMaster ==> o.inbox == inbox)
              && (IsRoot(c) ==> o.enqueued == [Mail(NewMessage, owner, c.id)])
              && (!IsRoot(c) ==>
                    && NoDuplicates(Recipients(o.enqueued))
                    && ToSet(Recipients(o.enqueued)) == (EmailSet(svc.subtree(svc.rootOf(c.id))) + {owner}) - {c.email}
                    && (forall m :: m in o.enqueued ==> m.kind == MessageReply && m.cid == c.id))
    ensures o.response.PostedForReview? ==>
              o.inbox == inbox && o.enqueued == [Mail(AwaitingReview, owner, board.nextId)]
    ensures board.Valid() ==> o.board.Valid()
    ensures inbox.Valid() ==> o.inbox.Valid()
  {
    var msg := Draft(env, session.user, cmd, content).(id := board.nextId);
    var board' := Board(board.comments[msg.id := msg], board.nextId + 1);
    var session' := session.(lastMsg := Some(PlainText(env, msg.content)));
    var effects := Effects(svc, owner, msg, inbox);
    var response := if msg.status == Published then PostedLive else PostedForReview;
    SubmitOutcome(response, session', board', effects.0, effects.1)
  }

  /** The text the guard compares as written: the plain text of the
      normalised content, before sanitising. */
  function PostedText(env: Env, cmd: LeaveMessageCommand): string {
    PlainText(env, Normalize(cmd.content))
  }

  /** `Submit`: posts a leave-message. `owner` is the site's receiving
      address and `saved` whether the insert succeeded. A ban match is
      checked first, then the session's duplicate guard; a rejected or
      failed post changes nothing and enqueues nothing. As written, the
      guard compares the plain text of the content before sanitising. */
  function Submit(env: Env, svc: ThreadService, owner: string, saved: bool,
                  session: Session, board: Board, inbox: Inbox, cmd: LeaveMessageCommand): (o: SubmitOutcome)
    ensures env.banned(cmd.nickName + cmd.content) ==>
              o == SubmitOutcome(BannedContent, session, board, inbox, [])
    ensures !env.banned(cmd.nickName + cmd.content) && session.lastMsg == Some(PostedText(env, cmd)) ==>
              o == SubmitOutcome(DuplicateMessage, session, board, inbox, [])
    ensures Posted(o.response) <==>
              !env.banned(cmd.nickName + cmd.content) && session.lastMsg != Some(PostedText(env, cmd)) && saved
    ensures !env.banned(cmd.nickName + cmd.content) && session.lastMsg != Some(PostedText(env, cmd)) && !saved ==>
              o == SubmitOutcome(SaveFailed, session, board, inbox, [])
    ensures !Posted(o.response) ==>
              o.session == session && o.board == board && o.inbox == inbox && o.enqueued == []
    ensures Posted(o.response) ==> o == Post(env, svc, owner, session, board, inbox, cmd, Normalize(cmd.content))
    ensures board.Valid() ==> o.board.Valid()
    ensures inbox.Valid() ==> o.inbox.Valid()
  {
    if env.banned(cmd.nickName + cmd.content) then
      SubmitOutcome(BannedContent, session, board, inbox, [])
    else if session.lastMsg == Some(PostedText(env, cmd)) then
      SubmitOutcome(DuplicateMessage, session, board, inbox, [])
    else if !saved then
      SubmitOutcome(SaveFailed, session, board, inbox, [])
    else
      Post(env, svc, owner, session, board, inbox, cmd, Normalize(cmd.content))
  }

  /** The text a message is remembered by once stored: the plain text of
      its sanitised content. */
  function StoredText(env: Env, cmd: LeaveMessageCommand): string {
    PlainText(env, Sanitized(env, Normalize(cmd.content)))
  }

  /** `Submit` with the guard comparing the same text the session stores;
      otherwise the same request. */
  function SubmitStored(env: Env, svc: ThreadService, owner: string, saved: bool,
                        session: Session, board: Board, inbox: Inbox, cmd: LeaveMessageCommand): (o: SubmitOutcome)
    ensures Posted(o.response) <==>
              !env.banned(cmd.nickName + cmd.content) && session.lastMsg != Some(StoredText(env, cmd)) && saved
    ensures !Posted(o.response) ==>
              o.session == session && o.board == board && o.inbox == inbox && o.enqueued == []
    ensures Posted(o.response) ==>
              o == Post(env, svc, owner, session, board, inbox, cmd, Normalize(cmd.content))
              && o.session.lastMsg == Some(StoredText(env, cmd))
  {
    if env.banned(cmd.nickName + cmd.content) then
      SubmitOutcome(BannedContent, session, board, inbox, [])
    else if session.lastMsg == Some(StoredText(env, cmd)) then
      SubmitOutcome(DuplicateMessage, session, board, inbox, [])
    else if !saved then
      SubmitOutcome(SaveFailed, session, board, inbox, [])
    else
      Post(env, svc, owner, session, board, inbox, cmd, Normalize(cmd.content))
  }

  /** With the corrected guard, posting the same message again in the same
      session is always refused as a duplicate, whatever the sanitiser. */
  lemma ResubmitStoredIsDuplicate(env: Env, svc: ThreadService, owner: string, saved: bool, again: bool,
                                  session: Session, board: Board, inbox: Inbox, cmd: LeaveMessageCommand)
    ensures var o := SubmitStored(env, svc, owner, saved, session, board, inbox, cmd);
            Posted(o.response) ==>
              SubmitStored(env, svc, owner, again, o.session, o.board, o.inbox, cmd).response == DuplicateMessage
  {
  }

  /** Posting the same message again in the same session is refused as a
      duplicate, provided sanitising does not change its plain text. */
  lemma ResubmitIsDuplicate(env: Env, svc: ThreadService, owner: string, saved: bool, again: bool,
                            session: Session, board: Board, inbox: Inbox, cmd: LeaveMessageCommand)
    requires !env.banned(cmd.nickName + cmd.content) && saved
    ensures var content := Normalize(cmd.content);
            var o := Submit(env, svc, owner, saved, session, board, inbox, cmd);
            session.lastMsg != Some(PlainText(env, content)) &&
            PlainText(env, Sanitized(env, content)) == PlainText(env, content) ==>
              Submit(env, svc, owner, again, o.session, o.board, o.inbox, cmd).response == DuplicateMessage
  {
  }

  /** With a sanitiser that removes text, the guard compares the posted
      plain text with the sanitised one and lets the same message in twice. */
  lemma ResubmitPassesWhenSanitizerDropsText()
    ensures var env := Env(s => false, s => 0, s => s, s => "", s => s);
            var svc := ThreadService(id => id, id => []);
            var cmd := LeaveMessageCommand(0, "guest", "guest@example.com", "", "hi");
            var first := Submit(env, svc, "owner@example.com", true, Session(None, None), Board(map[], 1), Inbox(map[], 1), cmd);
            var second := Submit(env, svc, "owner@example.com", true, first.session, first.board, first.inbox, cmd);
            first.response == PostedLive && second.response == PostedLive
  {
    var env := Env(s => false, s => 0, s => s, s => "", s => s);
    var svc := ThreadService(id => id, id => []);
    var cmd := LeaveMessageCommand(0, "guest", "guest@example.com", "", "hi");
    assert Trim("hi") == "hi" by {
      TrimOfTrimmed("hi");
    }
    assert Trim("") == "";
    assert !OccursAt("hi", EmptyParagraph, 0);
    assert Normalize(cmd.content) == "hi";
    assert PlainText(env, "hi") == "hi";
    assert PlainText(env, Sanitized(env, "hi")) == "";
    var first := Submit(env, svc, "owner@example.com", true, Session(None, None), Board(map[], 1), Inbox(map[], 1), cmd);
    assert first.response == PostedLive;
    assert first.session.lastMsg == Some("");
    var second := Submit(env, svc, "owner@example.com", true, first.session, first.board, first.inbox, cmd);
    assert Posted(second.response);
  }

  /** Once the session has forgotten the last message, any message that is
      not banned and is saved is posted. */
  lemma FreshSessionPosts(env: Env, svc: ThreadService, owner: string,
                          user: Option<UserInfo>, board: Board, inbox: Inbox, cmd: LeaveMessageCommand)
    requires !env.banned(cmd.nickName + cmd.content)
    ensures Posted(Submit(env, svc, owner, true, Session(None, user), board, inbox, cmd).response)
  {
  }

  datatype PassOutcome = PassOutcome(success: bool, board: Board, enqueued: seq<Mail>)

  /** `Pass`: approves message `id` as the signed-in `approver`. An unknown
      id fails. Only that message's status changes, to Published; success
      is reported when a row changed, that is, when it was Pending. The
      thread's participants other than the author and the approver are
      e-mailed whatever the outcome. */
  function Pass(svc: ThreadService, approver: string, board: Board, id: int): (r: Result<PassOutcome, Fault>)
    ensures r.Failure? <==> id !in board.comments
    ensures r.Success? ==>
              var msg := board.comments[id];
              && (r.value.success <==> msg.status == Pending)
              && r.value.board.nextId == board.nextId
              && r.value.board.comments.Keys == board.comments.Keys
              && r.value.board.comments[id] == msg.(status := Published)
              && (forall k :: k in board.comments && k != id ==> r.value.board.comments[k] == board.comments[k])
    ensures r.Success? ==>
              var msg := board.comments[id];
              var pid := if IsRoot(msg) then msg.id else svc.rootOf(id);
              && NoDuplicates(Recipients(r.value.enqueued))
              && ToSet(Recipients(r.value.enqueued)) == EmailSet(svc.subtree(pid)) - {msg.email, approver}
              && (forall m :: m in r.value.enqueued ==> m.kind == MessageReply && m.cid == pid)
    ensures r.Success? && board.Valid() ==> r.value.board.Valid()
  {
    if id !in board.comments then
      Failure(NotFound)
    else
      var msg := board.comments[id];
      var board' := board.(comments := board.comments[id := msg.(status := Published)]);
      var pid := if IsRoot(msg) then msg.id else svc.rootOf(id);
      var to := ApprovalRecipients(svc.subtree(pid), msg.email, approver);
      RecipientsOfMailsTo(MessageReply, to, pid);
      Success(PassOutcome(msg.status != Published, board', MailsTo(MessageReply, to, pid)))
  }

  /** The held messages (`GetPendingMsgs`, without paging and ordering). */
  function PendingComments(board: Board): (r: map<int, Comment>)
    ensures forall k :: k in r <==> k in board.comments && board.comments[k].status == Pending
    ensures forall k :: k in r ==> r[k] == board.comments[k]
  {
    map k | k in board.comments && board.comments[k].status == Pending :: board.comments[k]
  }

  /** Approving a message takes exactly that message off the pending list. */
  lemma PassLeavesOtherPending(svc: ThreadService, approver: string, board: Board, id: int)
    requires id in board.comments
    ensures PendingComments(Pass(svc, approver, board, id).value.board) == PendingComments(board) - {id}
  {
  }

  /** A second approval changes nothing more and reports failure. */
  lemma PassTwice(svc: ThreadService, approver: string, board: Board, id: int)
    requires id in board.comments
    ensures var once := Pass(svc, approver, board, id).value;
            var twice := Pass(svc, approver, once.board, id).value;
            twice.board == once.board && !twice.success
  {
    var once := Pass(svc, approver, board, id).value;
    var m := once.board.comments;
    assert m[id := m[id].(status := Published)] == m;
  }

  datatype DeleteOutcome = DeleteOutcome(success: bool, board: Board)

  /** The ids of a list of messages. */
  function Ids(thread: seq<Comment>): set<int> {
    set c | c in thread :: c.id
  }

  /** `Delete`: removes message `id` and every message below it, as the
      service lists them; `saved` is whether the bulk delete succeeded. */
  function Delete(svc: ThreadService, saved: bool, board: Board, id: int): (r: DeleteOutcome)
    ensures r.success == saved
    ensures r.board.nextId == board.nextId
    ensures saved ==> r.board.comments.Keys == board.comments.Keys - Ids(svc.subtree(id))
    ensures forall k :: k in r.board.comments ==> k in board.comments && r.board.comments[k] == board.comments[k]
    ensures !saved ==> r.board == board
    ensures board.Valid() ==> r.board.Valid()
  {
    if saved then DeleteOutcome(true, board.(comments := board.comments - Ids(svc.subtree(id))))
    else DeleteOutcome(false, board)
  }

  /** One page of the board listing. */
  datatype Listing = Listing(total: int, parentTotal: int, page: int, size: int, rows: seq<Comment>)

  /** The board listing's only failure: nothing to show. */
  datatype ListError = NoMessages

  /** What a reader may see: published messages, or anything for an admin. */
  predicate Visible(c: Comment, isAdmin: bool) {
    c.status == Published || isAdmin
  }

  /** The messages of `cs` the reader may see, in order. */
  function VisibleOnly(cs: seq<Comment>, isAdmin: bool): (r: seq<Comment>)
    ensures forall c :: c in r <==> c in cs && Visible(c, isAdmin)
    ensures isAdmin ==> r == cs
    decreases |cs|
  {
    if |cs| == 0 then []
    else
      var rest := VisibleOnly(cs[1..], isAdmin);
      assert cs == [cs[0]] + cs[1..];
      if Visible(cs[0], isAdmin) then [cs[0]] + rest else rest
  }

  /** The root messages of `all` the reader may see, in order; a table
      without repeated rows gives a list without repeats. */
  function VisibleRoots(all: seq<Comment>, isAdmin: bool): (r: seq<Comment>)
    ensures forall c :: c in r <==> c in all && IsRoot(c) && Visible(c, isAdmin)
    ensures NoDuplicates(all) ==> NoDuplicates(r)
    decreases |all|
  {
    if |all| == 0 then []
    else
      var rest := VisibleRoots(all[1..], isAdmin);
      assert all == [all[0]] + all[1..];
      TailNoDuplicates(all);
      if IsRoot(all[0]) && Visible(all[0], isAdmin) then
        ConsNoDuplicates(all[0], rest);
        [all[0]] + rest
      else
        rest
  }

  /** The number of root messages the reader may see: the count the listing
      reports as `total`. */
  function RootCount(all: seq<Comment>, isAdmin: bool): nat {
    |set c | c in all && IsRoot(c) && Visible(c, isAdmin)|
  }

  /** Over a table without repeated rows, the visible roots are as many as
      the rows the count query matches. */
  lemma VisibleRootsCount(all: seq<Comment>, isAdmin: bool)
    ensures NoDuplicates(all) ==> |VisibleRoots(all, isAdmin)| == RootCount(all, isAdmin)
  {
    if NoDuplicates(all) {
      var r := VisibleRoots(all, isAdmin);
      NoDuplicatesCardinality(r);
      assert ToSet(r) == set c | c in all && IsRoot(c) && Visible(c, isAdmin);
    }
  }

  /** The `size` elements of `xs` from index `start` on, fewer at the end. */
  function PageOf(xs: seq<Comment>, start: int, size: int): (r: seq<Comment>)
    requires 0 <= start && 1 <= size
    ensures |r| <= size
    ensures |r| > 0 <==> start < |xs|
    ensures forall i :: 0 <= i < |r| ==> start + i < |xs| && r[i] == xs[start + i]
    ensures start < |xs| ==> |r| == (if start + size <= |xs| then size else |xs| - start)
  {
    if start >= |xs| then []
    else if start + size <= |xs| then xs[start..start + size]
    else xs[start..]
  }

  /** The index of the first row of page `page` (from 1). */
  function PageStart(page: int, size: int): (start: int)
    requires 1 <= page && 1 <= size
    ensures 0 <= start
  {
    (page - 1) * size
  }

  /** Index `i` (from 0) falls on the page starting at `start`. */
  predicate OnPage(i: int, start: int, size: int) {
    start <= i < start + size
  }

  /** The visible messages of the threads of `roots`, thread after thread. */
  function Threads(svc: ThreadService, roots: seq<Comment>, isAdmin: bool): (r: seq<Comment>)
    ensures forall c :: c in r ==> Visible(c, isAdmin)
    ensures forall c :: c in r ==> exists i :: 0 <= i < |roots| && c in svc.subtree(roots[i].id)
    ensures forall i, c :: 0 <= i < |roots| && c in svc.subtree(roots[i].id) && Visible(c, isAdmin) ==> c in r
    decreases |roots|
  {
    if |roots| == 0 then []
    else
      var head := VisibleOnly(svc.subtree(roots[0].id), isAdmin);
      var rest := Threads(svc, roots[1..], isAdmin);
      ThreadsShift(svc, roots, rest, isAdmin);
      head + rest
  }

  lemma ThreadsShift(svc: ThreadService, roots: seq<Comment>, rest: seq<Comment>, isAdmin: bool)
    requires |roots| > 0
    requires forall c :: c in rest ==> exists i :: 0 <= i < |roots[1..]| && c in svc.subtree(roots[1..][i].id)
    requires forall i, c :: 0 <= i < |roots[1..]| && c in svc.subtree(roots[1..][i].id) && Visible(c, isAdmin) ==> c in rest
    ensures forall c :: c in rest ==> exists i :: 0 <= i < |roots| && c in svc.subtree(roots[i].id)
    ensures forall i, c :: 1 <= i < |roots| && c in svc.subtree(roots[i].id) && Visible(c, isAdmin) ==> c in rest
  {
    forall c | c in rest
      ensures exists i :: 0 <= i < |roots| && c in svc.subtree(roots[i].id)
    {
      var j :| 0 <= j < |roots[1..]| && c in svc.subtree(roots[1..][j].id);
      assert roots[1..][j] == roots[j + 1];
    }
    forall i, c | 1 <= i < |roots| && c in svc.subtree(roots[i].id) && Visible(c, isAdmin)
      ensures c in rest
    {
      assert roots[1..][i - 1] == roots[i];
    }
  }

  /** `GetMsgs`, as the controller is written. With a `cid` whose thread
      is not empty, that whole thread is returned with total 1; otherwise
      the page of visible roots, each followed by the visible messages of
      its thread. `all` is the table in the listing's order (newest first). */
  function GetMsgs(svc: ThreadService, all: seq<Comment>, isAdmin: bool, page: int, size: int, cid: int): (r: Result<Listing, ListError>)
    requires 1 <= page <= IntMax && 1 <= size <= MaxPageSize
    ensures cid != 0 && |svc.subtree(svc.rootOf(cid))| > 0 ==>
              r == Success(Listing(1, 1, page, size, svc.subtree(svc.rootOf(cid))))
    ensures !(cid != 0 && |svc.subtree(svc.rootOf(cid))| > 0) ==>
              var roots := VisibleRoots(all, isAdmin);
              && (r.Success? <==> PageStart(page, size) < |roots|)
              && (r.Success? ==>
                    && r.value.total == |roots| && r.value.parentTotal == |roots|
                    && r.value.page == page && r.value.size == size
                    && PageShows(svc, roots, isAdmin, page, size, r.value.rows)
                    && (NoDuplicates(all) ==> r.value.total == RootCount(all, isAdmin)))
  {
    if cid != 0 && |svc.subtree(svc.rootOf(cid))| > 0 then
      Success(Listing(1, 1, page, size, svc.subtree(svc.rootOf(cid))))
    else
      Listed(svc, all, isAdmin, page, size)
  }

  /** `rows` shows page `page` of `roots`: only visible messages, each from
      the thread of some root, and every visible message of the thread of
      every root on that page. */
  ghost predicate PageShows(svc: ThreadService, roots: seq<Comment>, isAdmin: bool, page: int, size: int, rows: seq<Comment>)
    requires 1 <= page && 1 <= size
  {
    && (forall c :: c in rows ==> Visible(c, isAdmin))
    && (forall c :: c in rows ==>
          exists i :: OnPage(i, PageStart(page, size), size) && 0 <= i < |roots| && c in svc.subtree(roots[i].id))
    && (forall i, c :: OnPage(i, PageStart(page, size), size) && i < |roots| && c in svc.subtree(roots[i].id) && Visible(c, isAdmin) ==> c in rows)
  }

  /** The rows of page `page`: the visible messages of the threads of the
      roots on that page. */
  function PageRows(svc: ThreadService, roots: seq<Comment>, isAdmin: bool, page: int, size: int): (rows: seq<Comment>)
    requires 1 <= page && 1 <= size
    ensures PageShows(svc, roots, isAdmin, page, size, rows)
  {
    var start := PageStart(page, size);
    var shown := PageOf(roots, start, size);
    var rows := Threads(svc, shown, isAdmin);
    forall c | c in rows
      ensures exists i :: OnPage(i, start, size) && 0 <= i < |roots| && c in svc.subtree(roots[i].id)
    {
      var j :| 0 <= j < |shown| && c in svc.subtree(shown[j].id);
      assert shown[j] == roots[start + j];
      assert OnPage(start + j, start, size);
    }
    forall i, c | OnPage(i, PageStart(page, size), size) && i < |roots| && c in svc.subtree(roots[i].id) && Visible(c, isAdmin)
      ensures c in rows
    {
      var j := i - start;
      assert shown[j] == roots[i];
    }
    rows
  }

  /** The paged branch of the board listing. */
  function Listed(svc: ThreadService, all: seq<Comment>, isAdmin: bool, page: int, size: int): (r: Result<Listing, ListError>)
    requires 1 <= page && 1 <= size
    ensures var roots := VisibleRoots(all, isAdmin);
            && (r.Success? <==> PageStart(page, size) < |roots|)
            && (r.Success? ==>
                  && r.value.total == |roots| && r.value.parentTotal == |roots|
                  && r.value.page == page && r.value.size == size
                  && PageShows(svc, roots, isAdmin, page, size, r.value.rows)
                  && (NoDuplicates(all) ==> r.value.total == RootCount(all, isAdmin)))
  {
    var roots := VisibleRoots(all, isAdmin);
    VisibleRootsCount(all, isAdmin);
    if |PageOf(roots, PageStart(page, size), size)| == 0 then
      Failure(NoMessages)
    else
      var total := |roots|;
      if total > 0 then Success(Listing(total, total, page, size, PageRows(svc, roots, isAdmin, page, size)))
      else Failure(NoMessages)
  }

  /** `GetMsgs` with the visibility rule applied to the `cid` lookup too. */
  function GetMsgsVisible(svc: ThreadService, all: seq<Comment>, isAdmin: bool, page: int, size: int, cid: int): (r: Result<Listing, ListError>)
    requires 1 <= page <= IntMax && 1 <= size <= MaxPageSize
    ensures r.Success? ==> forall c :: c in r.value.rows ==> Visible(c, isAdmin)
    ensures cid != 0 && |VisibleOnly(svc.subtree(svc.rootOf(cid)), isAdmin)| > 0 ==>
              r.Success? && r.value.total == 1
              && (forall c :: c in svc.subtree(svc.rootOf(cid)) && Visible(c, isAdmin) ==> c in r.value.rows)
  {
    var single := if cid != 0 then VisibleOnly(svc.subtree(svc.rootOf(cid)), isAdmin) else [];
    if cid != 0 && |single| > 0 then
      Success(Listing(1, 1, page, size, single))
    else
      Listed(svc, all, isAdmin, page, size)
  }

  /** An admin sees the same listing either way. */
  lemma AdminListingUnchanged(svc: ThreadService, all: seq<Comment>, page: int, size: int, cid: int)
    requires 1 <= page <= IntMax && 1 <= size <= MaxPageSize
    ensures GetMsgsVisible(svc, all, true, page, size, cid) == GetMsgs(svc, all, true, page, size, cid)
  {
  }

  /** As written, the `cid` lookup shows a visitor a held reply. */
  lemma CidLookupShowsPending()
    ensures var held := Comment(2, 1, "guest", "guest@example.com", "", "held", Pending, false);
            var svc := ThreadService(id => 1, root => [held]);
            var r := GetMsgs(svc, [], false, 1, 15, 2);
            r.Success? && held in r.value.rows && !Visible(held, false)
  {
  }
}

=== FILE: entities.dfy ===
/** The records the message board and the internal inbox work on, the two
    stores they live in, and the collaborators the controller delegates to
    (regular expressions, HTML helpers, the comment-tree service), which
    are kept abstract as records of total functions. */
module Entities {

  datatype Option<T> = None | Some(value: T)

  datatype Result<T, E> = Success(value: T) | Failure(error: E)

  /** A lookup by id that found nothing: the controller dereferences the
      null entity and the request fails. */
  datatype Fault = NotFound

  /** Moderation status of a leave-message. */
  datatype Status = Pending | Published

  /** A row of the leave-message table. `parentId == 0` marks a root. */
  datatype Comment = Comment(
    id: int,
    parentId: int,
    nickName: string,
    email: string,
    qqOrWechat: string,
    content: string,
    status: Status,
    isMaster: bool)

  predicate IsRoot(c: Comment) {
    c.parentId == 0
  }

  /** The posted form of a new leave-message. */
  datatype LeaveMessageCommand = LeaveMessageCommand(
    parentId: int,
    nickName: string,
    email: string,
    qqOrWechat: string,
    content: string)

  /** The signed-in user stored in the session. */
  datatype UserInfo = UserInfo(nickName: string, email: string, qqOrWechat: string, isAdmin: bool)

  /** The per-session values `Submit` reads and writes: the plain text of
      the last message this session posted (`"msg"`) and the signed-in user. */
  datatype Session = Session(lastMsg: Option<string>, user: Option<UserInfo>)

  predicate IsAdmin(user: Option<UserInfo>) {
    user.Some? && user.value.isAdmin
  }

  /** The leave-message table: rows by id, and the id the next insert gets. */
  datatype Board = Board(comments: map<int, Comment>, nextId: int) {
    /** Ids are positive, below `nextId`, and agree with the row's own id. */
    predicate Valid() {
      && 0 < nextId
      && forall k :: k in comments ==> 0 < k < nextId && comments[k].id == k
    }
  }

  /** A row of the internal-message table; `link` is the `cid` of the
      leave-message the notice points to. */
  datatype InternalMessage = InternalMessage(id: int, title: string, content: string, link: int, read: bool)

  /** The internal-message table. */
  datatype Inbox = Inbox(msgs: map<int, InternalMessage>, nextId: int) {
    predicate Valid() {
      && 0 < nextId
      && forall k :: k in msgs ==> 0 < k < nextId && msgs[k].id == k
    }
  }

  /** Which template subject a background e-mail job carries. */
  datatype MailKind =
    | NewMessage      // new root message, to the owner
    | AwaitingReview  // new message held for moderation, to the owner
    | MessageReply    // reply in a thread, to its participants

  /** One enqueued e-mail job: its subject kind, its recipient, and the
      `cid` its link points to. */
  datatype Mail = Mail(kind: MailKind, to: string, cid: int)

  /** The text helpers the controller calls but whose code lies outside
      this model. */
  datatype Env = Env(
    banned: string -> bool,             // the ban regular expression matches
    modMatchLength: string -> nat,      // length of the moderation regular expression's match
    removeHtmlTag: string -> string,
    sanitize: string -> string,         // the standard HTML sanitiser
    clearImgAttributes: string -> string)

  /** The comment-tree queries of the leave-message service:
      the root ancestor of a message and a root's whole thread. */
  datatype ThreadService = ThreadService(
    rootOf: int -> int,
    subtree: int -> seq<Comment>)
}

=== FILE: inbox.dfy ===
/** The owner's internal-message inbox: a table of notices with a read flag,
    and the owner-only operations that flip, delete and bulk-update it. */
module InternalMessages {
  import opened Entities

  /** Storing a new notice: it is unread and gets the next id; nothing
      already stored changes. */
  function Add(inbox: Inbox, title: string, content: string, link: int): (r: Inbox)
    ensures r.nextId == inbox.nextId + 1
    ensures r.msgs.Keys == inbox.msgs.Keys + {inbox.nextId}
    ensures r.msgs[inbox.nextId] == InternalMessage(inbox.nextId, title, content, link, false)
    ensures forall k :: k in inbox.msgs && k != inbox.nextId ==> r.msgs[k] == inbox.msgs[k]
    ensures inbox.Valid() ==> r.Valid() && |r.msgs| == |inbox.msgs| + 1
  {
    var notice := InternalMessage(inbox.nextId, title, content, link, false);
    Inbox(inbox.msgs[inbox.nextId := notice], inbox.nextId + 1)
  }

  /** Marks one notice read; an unknown id fails. Only that flag changes. */
  function Read(inbox: Inbox, id: int): (r: Result<Inbox, Fault>)
    ensures r.Failure? <==> id !in inbox.msgs
    ensures r.Success? ==>
              && r.value.nextId == inbox.nextId
              && r.value.msgs.Keys == inbox.msgs.Keys
              && r.value.msgs[id] == inbox.msgs[id].(read := true)
              && (forall k :: k in inbox.msgs && k != id ==> r.value.msgs[k] == inbox.msgs[k])
    ensures r.Success? && inbox.Valid() ==> r.value.Valid()
  {
    if id !in inbox.msgs then Failure(NotFound)
    else Success(inbox.(msgs := inbox.msgs[id := inbox.msgs[id].(read := true)]))
  }

  /** Marks one notice unread; an unknown id fails. Only that flag changes. */
  function Unread(inbox: Inbox, id: int): (r: Result<Inbox, Fault>)
    ensures r.Failure? <==> id !in inbox.msgs
    ensures r.Success? ==>
              && r.value.nextId == inbox.nextId
              && r.value.msgs.Keys == inbox.msgs.Keys
              && r.value.msgs[id] == inbox.msgs[id].(read := false)
              && (forall k :: k in inbox.msgs && k != id ==> r.value.msgs[k] == inbox.msgs[k])
    ensures r.Success? && inbox.Valid() ==> r.value.Valid()
  {
    if id !in inbox.msgs then Failure(NotFound)
    else Success(inbox.(msgs := inbox.msgs[id := inbox.msgs[id].(read := false)]))
  }

  /** Reading an unread notice and then marking it unread again restores
      the inbox. */
  lemma UnreadUndoesRead(inbox: Inbox, id: int)
    requires id in inbox.msgs && !inbox.msgs[id].read
    ensures Read(inbox, id).Success?
    ensures Unread(Read(inbox, id).value, id) == Success(inbox)
  {
    var m := inbox.msgs;
    var read := Read(inbox, id).value;
    assert read.msgs == m[id := m[id].(read := true)];
    assert m[id].(read := true).(read := false) == m[id];
    assert read.msgs[id := read.msgs[id].(read := false)] == m;
  }

  lemma ReadIdempotent(inbox: Inbox, id: int)
    requires id in inbox.msgs
    ensures Read(Read(inbox, id).value, id) == Read(inbox, id)
  {
    var once := Read(inbox, id).value;
    assert once.msgs[id := once.msgs[id].(read := true)] == once.msgs;
  }

  /** Flag changes on two different notices commute. */
  lemma ReadUnreadCommute(inbox: Inbox, a: int, b: int)
    requires a in inbox.msgs && b in inbox.msgs && a != b
    ensures Unread(Read(inbox, a).value, b) == Success(Read(Unread(inbox, b).value, a).value)
  {
    var m := inbox.msgs;
    var left := Unread(Read(inbox, a).value, b).value;
    var right := Read(Unread(inbox, b).value, a).value;
    assert left.msgs == m[a := m[a].(read := true)][b := m[b].(read := false)];
    assert right.msgs == m[b := m[b].(read := false)][a := m[a].(read := true)];
    assert left.msgs == right.msgs;
  }

  datatype Deletion = Deletion(deleted: bool, inbox: Inbox)

  /** Deletes one notice by id; reports whether there was one. */
  function DeleteMsg(inbox: Inbox, id: int): (r: Deletion)
    ensures r.deleted <==> id in inbox.msgs
    ensures r.inbox.nextId == inbox.nextId
    ensures r.inbox.msgs.Keys == inbox.msgs.Keys - {id}
    ensures forall k :: k in r.inbox.msgs ==> r.inbox.msgs[k] == inbox.msgs[k]
    ensures inbox.Valid() ==> r.inbox.Valid()
  {
    Deletion(id in inbox.msgs, inbox.(msgs := inbox.msgs - {id}))
  }

  /** The unread notices (`GetUnreadMsgs`, without its ordering). */
  function UnreadMsgs(inbox: Inbox): (r: map<int, InternalMessage>)
    ensures forall k :: k in r <==> k in inbox.msgs && !inbox.msgs[k].read
    ensures forall k :: k in r ==> r[k] == inbox.msgs[k]
  {
    map k | k in inbox.msgs && !inbox.msgs[k].read :: inbox.msgs[k]
  }

  /** Deletes every read notice and keeps every unread one as it is. */
  function ClearMsgs(inbox: Inbox): (r: Inbox)
    ensures r.nextId == inbox.nextId
    ensures forall k :: k in r.msgs <==> k in inbox.msgs && !inbox.msgs[k].read
    ensures forall k :: k in r.msgs ==> r.msgs[k] == inbox.msgs[k]
    ensures inbox.Valid() ==> r.Valid()
  {
    inbox.(msgs := inbox.msgs - (set k | k in inbox.msgs && inbox.msgs[k].read))
  }

  /** After clearing, the inbox holds exactly what the unread listing shows. */
  lemma ClearLeavesUnread(inbox: Inbox)
    ensures ClearMsgs(inbox).msgs == UnreadMsgs(inbox)
  {
  }

  lemma ClearIdempotent(inbox: Inbox)
    ensures ClearMsgs(ClearMsgs(inbox)) == ClearMsgs(inbox)
  {
  }

  /** Reference definition of marking read every notice whose id is at
      most `n`. */
  function MarkedReadUpTo(inbox: Inbox, n: int): (r: Inbox)
    ensures r.nextId == inbox.nextId
    ensures r.msgs.Keys == inbox.msgs.Keys
    ensures forall k :: k in inbox.msgs && inbox.msgs[k].id <= n ==> r.msgs[k] == inbox.msgs[k].(read := true)
    ensures forall k :: k in inbox.msgs && n < inbox.msgs[k].id ==> r.msgs[k] == inbox.msgs[k]
    ensures inbox.Valid() ==> r.Valid()
  {
    var msgs := map k | k in inbox.msgs ::
      if inbox.msgs[k].id <= n then inbox.msgs[k].(read := true) else inbox.msgs[k];
    inbox.(msgs := msgs)
  }

  /** `MarkRead`: selects the notices with id at most `n`, then sets the
      read flag of each one in turn. */
  method MarkRead(inbox: Inbox, n: int) returns (r: Inbox)
    ensures r == MarkedReadUpTo(inbox, n)
  {
    var stored := inbox.msgs;
    var selected := set k | k in stored && stored[k].id <= n;
    var msgs := stored;
    var todo := selected;
    while todo != {}
      invariant todo <= selected
      invariant msgs.Keys == stored.Keys
      invariant forall k :: k in selected && k !in todo ==> msgs[k] == stored[k].(read := true)
      invariant forall k :: k in stored && (k !in selected || k in todo) ==> msgs[k] == stored[k]
      decreases todo
    {
      HasMember(todo);
      var id :| id in todo;
      msgs := msgs[id := msgs[id].(read := true)];
      todo := todo - {id};
    }
    r := inbox.(msgs := msgs);
    var expected := MarkedReadUpTo(inbox, n).msgs;
    forall k | k in msgs
      ensures msgs[k] == expected[k]
    {
      if k in selected {
        assert msgs[k] == stored[k].(read := true);
      } else {
        assert msgs[k] == stored[k];
      }
    }
    assert msgs == expected;
  }

  lemma HasMember(s: set<int>)
    requires s != {}
    ensures exists x :: x in s
  {
    if forall x :: x !in s {
      assert false;
    }
  }

  /** Marking read up to `n` twice is marking once. */
  lemma MarkReadIdempotent(inbox: Inbox, n: int)
    ensures MarkedReadUpTo(MarkedReadUpTo(inbox, n), n) == MarkedReadUpTo(inbox, n)
  {
  }

  /** Two bulk updates amount to one up to the larger bound. */
  lemma MarkReadTwice(inbox: Inbox, a: int, b: int)
    ensures MarkedReadUpTo(MarkedReadUpTo(inbox, a), b) == MarkedReadUpTo(inbox, if a < b then b else a)
  {
  }

  /** Clearing after marking read up to `n` leaves only notices above `n`. */
  lemma MarkReadThenClear(inbox: Inbox, n: int)
    ensures forall k :: k in ClearMsgs(MarkedReadUpTo(inbox, n)).msgs ==> n < inbox.msgs[k].id
  {
  }
}

=== FILE: linq.dfy ===
/** The sequence operations the controller's queries are built from. */
module Linq {

  predicate NoDuplicates<T(==)>(xs: seq<T>) {
    forall i, j :: 0 <= i < j < |xs| ==> xs[i] != xs[j]
  }

  function ToSet<T>(xs: seq<T>): set<T> {
    set x | x in xs
  }

  /** `Enumerable.Except(xs, excluded)`: walks `xs` in order and yields each
      element that is neither excluded nor already yielded. The result holds
      every element of `xs` outside `excluded`, each exactly once. */
  function Except<T(==)>(xs: seq<T>, excluded: set<T>): (r: seq<T>)
    ensures NoDuplicates(r)
    ensures ToSet(r) == ToSet(xs) - excluded
    decreases |xs|
  {
    if |xs| == 0 then
      []
    else if xs[0] in excluded then
      Except(xs[1..], excluded)
    else
      var rest := Except(xs[1..], excluded + {xs[0]});
      assert xs[0] !in rest;
      assert ToSet(xs) == {xs[0]} + ToSet(xs[1..]);
      assert ToSet([xs[0]] + rest) == {xs[0]} + ToSet(rest);
      [xs[0]] + rest
  }

  /** Dropping the head of a sequence without duplicates leaves one without
      duplicates, and the head is not in it. */
  lemma TailNoDuplicates<T>(xs: seq<T>)
    requires |xs| > 0
    ensures NoDuplicates(xs) ==> NoDuplicates(xs[1..]) && xs[0] !in xs[1..]
  {
    if NoDuplicates(xs) {
      var rest := xs[1..];
      forall i, j | 0 <= i < j < |rest|
        ensures rest[i] != rest[j]
      {
        assert rest[i] == xs[i + 1] && rest[j] == xs[j + 1];
      }
      forall j | 0 <= j < |rest|
        ensures rest[j] != xs[0]
      {
        assert rest[j] == xs[j + 1];
      }
    }
  }

  /** Putting a new element in front keeps a sequence without duplicates. */
  lemma ConsNoDuplicates<T>(x: T, xs: seq<T>)
    ensures NoDuplicates(xs) && x !in xs ==> NoDuplicates([x] + xs)
  {
    if NoDuplicates(xs) && x !in xs {
      var ys := [x] + xs;
      forall i, j | 0 <= i < j < |ys|
        ensures ys[i] != ys[j]
      {
        assert ys[j] == xs[j - 1];
        if 0 < i {
          assert ys[i] == xs[i - 1];
        }
      }
    }
  }

  /** A sequence without duplicates has as many elements as its set. */
  lemma {:induction false} NoDuplicatesCardinality<T>(xs: seq<T>)
    requires NoDuplicates(xs)
    ensures |ToSet(xs)| == |xs|
    decreases |xs|
  {
    if |xs| > 0 {
      var rest := xs[1..];
      assert NoDuplicates(rest) by {
        forall i, j | 0 <= i < j < |rest|
          ensures rest[i] != rest[j]
        {
          assert rest[i] == xs[i + 1] && rest[j] == xs[j + 1];
        }
      }
      NoDuplicatesCardinality(rest);
      assert xs[0] !in ToSet(rest) by {
        forall j | 0 <= j < |rest|
          ensures rest[j] != xs[0]
        {
          assert rest[j] == xs[j + 1];
        }
      }
      assert ToSet(xs) == ToSet(rest) + {xs[0]};
    }
  }

  /** `Except` yields one element per distinct surviving value. */
  lemma ExceptCardinality<T>(xs: seq<T>, excluded: set<T>)
    ensures |Except(xs, excluded)| == |ToSet(xs) - excluded|
  {
    NoDuplicatesCardinality(Except(xs, excluded));
  }
}

=== FILE: notifications.dfy ===
/** Who is e-mailed when a message is published or approved. Both lists
    are set algebra over the e-mail addresses of a thread. */
module Notifications {
  import opened Entities
  import opened Linq

  /** The e-mail addresses of a thread's messages, in thread order. */
  function Emails(thread: seq<Comment>): (r: seq<string>)
    ensures |r| == |thread|
    ensures forall i :: 0 <= i < |thread| ==> r[i] == thread[i].email
  {
    seq(|thread|, i requires 0 <= i < |thread| => thread[i].email)
  }

  /** The set of addresses appearing in a thread. */
  function EmailSet(thread: seq<Comment>): set<string> {
    set c | c in thread :: c.email
  }

  lemma EmailsToSet(thread: seq<Comment>)
    ensures ToSet(Emails(thread)) == EmailSet(thread)
  {
    var es := Emails(thread);
    forall a | a in ToSet(es)
      ensures a in EmailSet(thread)
    {
      var i :| 0 <= i < |es| && es[i] == a;
      assert thread[i] in thread;
    }
    forall a | a in EmailSet(thread)
      ensures a in ToSet(es)
    {
      var c :| c in thread && c.email == a;
      var i :| 0 <= i < |thread| && thread[i] == c;
      assert es[i] == a;
    }
  }

  /** Recipients of the reply notice of a newly published reply: every
      address in the thread plus the owner's, less the replier's own, each
      once. */
  function ReplyRecipients(thread: seq<Comment>, owner: string, author: string): (r: seq<string>)
    ensures NoDuplicates(r)
    ensures ToSet(r) == (EmailSet(thread) + {owner}) - {author}
  {
    EmailsToSet(thread);
    assert ToSet(Emails(thread) + [owner]) == ToSet(Emails(thread)) + {owner};
    Except(Emails(thread) + [owner], {author})
  }

  /** Recipients of the notice sent when a held message is approved: every
      address in the thread less the message author's and the approver's,
      each once. The owner is not added. */
  function ApprovalRecipients(thread: seq<Comment>, author: string, approver: string): (r: seq<string>)
    ensures NoDuplicates(r)
    ensures ToSet(r) == EmailSet(thread) - {author, approver}
  {
    EmailsToSet(thread);
    Except(Emails(thread), {author, approver})
  }

  /** One background e-mail job per address, in order. */
  function MailsTo(kind: MailKind, to: seq<string>, cid: int): (m: seq<Mail>)
    ensures |m| == |to|
    ensures forall i :: 0 <= i < |m| ==> m[i] == Mail(kind, to[i], cid)
  {
    seq(|to|, i requires 0 <= i < |to| => Mail(kind, to[i], cid))
  }

  /** The addresses a sequence of e-mail jobs goes to. */
  function Recipients(mails: seq<Mail>): seq<string> {
    seq(|mails|, i requires 0 <= i < |mails| => mails[i].to)
  }

  lemma RecipientsOfMailsTo(kind: MailKind, to: seq<string>, cid: int)
    ensures Recipients(MailsTo(kind, to, cid)) == to
  {
  }

  /** The reply notice goes to as many distinct addresses as there are jobs:
      one enqueue per recipient. */
  lemma ReplyRecipientsCount(thread: seq<Comment>, owner: string, author: string)
    ensures |ReplyRecipients(thread, owner, author)| == |(EmailSet(thread) + {owner}) - {author}|
  {
    NoDuplicatesCardinality(ReplyRecipients(thread, owner, author));
  }

  lemma ApprovalRecipientsCount(thread: seq<Comment>, author: string, approver: string)
    ensures |ApprovalRecipients(thread, author, approver)| == |EmailSet(thread) - {author, approver}|
  {
    NoDuplicatesCardinality(ApprovalRecipients(thread, author, approver));
  }

  /** The owner hears about every reply except one the owner wrote. */
  lemma OwnerNotifiedOfReply(thread: seq<Comment>, owner: string, author: string)
    requires owner != author
    ensures owner in ReplyRecipients(thread, owner, author)
  {
    assert owner in ToSet(ReplyRecipients(thread, owner, author));
  }

  /** Nobody is e-mailed about their own message. */
  lemma AuthorNeverNotified(thread: seq<Comment>, owner: string, author: string, approver: string)
    ensures author !in ReplyRecipients(thread, owner, author)
    ensures author !in ApprovalRecipients(thread, author, approver)
    ensures approver !in ApprovalRecipients(thread, author, approver)
  {
    assert author !in ToSet(ReplyRecipients(thread, owner, author));
    assert author !in ToSet(ApprovalRecipients(thread, author, approver));
    assert approver !in ToSet(ApprovalRecipients(thread, author, approver));
  }
}

=== FILE: text.dfy ===
/** The two .NET string operations `Submit` applies to a posted message
    before it is moderated: `String.Trim()` and `String.Replace(p, "")`. */
module Text {

  /** `char.IsWhiteSpace`: the Unicode space, line and paragraph separators,
      the controls U+0009..U+000D and U+0085. */
  predicate IsWhiteSpace(c: char) {
    || ('\U{9}' <= c <= '\U{D}')
    || c == ' ' || c == '\U{85}' || c == '\U{A0}' || c == '\U{1680}'
    || ('\U{2000}' <= c <= '\U{200A}')
    || c == '\U{2028}' || c == '\U{2029}' || c == '\U{202F}' || c == '\U{205F}'
    || c == '\U{3000}'
  }

  /** `s` neither starts nor ends with white space. */
  predicate Trimmed(s: string) {
    |s| == 0 || (!IsWhiteSpace(s[0]) && !IsWhiteSpace(s[|s| - 1]))
  }

  /** `String.TrimStart()`: drops the longest all-white-space prefix. */
  function TrimStart(s: string): (r: string)
    ensures |r| <= |s| && r == s[|s| - |r|..]
    ensures forall i :: 0 <= i < |s| - |r| ==> IsWhiteSpace(s[i])
    ensures |r| > 0 ==> !IsWhiteSpace(r[0])
    decreases |s|
  {
    if |s| > 0 && IsWhiteSpace(s[0]) then TrimStart(s[1..]) else s
  }

  /** `String.TrimEnd()`: drops the longest all-white-space suffix. */
  function TrimEnd(s: string): (r: string)
    ensures |r| <= |s| && r == s[..|r|]
    ensures forall i :: |r| <= i < |s| ==> IsWhiteSpace(s[i])
    ensures |r| > 0 ==> !IsWhiteSpace(r[|r| - 1])
    decreases |s|
  {
    if |s| > 0 && IsWhiteSpace(s[|s| - 1]) then TrimEnd(s[..|s| - 1]) else s
  }

  /** `String.Trim()`: the result is the infix of `s` left once white space
      is removed from both ends, and it is itself trimmed. */
  function Trim(s: string): (r: string)
    ensures Trimmed(r)
    ensures exists k :: 0 <= k <= |s| - |r|
                        && r == s[k..][..|r|]
                        && (forall i :: 0 <= i < k ==> IsWhiteSpace(s[i]))
                        && (forall i :: k + |r| <= i < |s| ==> IsWhiteSpace(s[i]))
  {
    var t := TrimStart(s);
    var r := TrimEnd(t);
    TrimWitness(s, t, r);
    r
  }

  lemma TrimWitness(s: string, t: string, r: string)
    requires t == TrimStart(s) && r == TrimEnd(t)
    ensures var k := |s| - |t|;
            && r == s[k..][..|r|]
            && (forall i :: 0 <= i < k ==> IsWhiteSpace(s[i]))
            && (forall i :: k + |r| <= i < |s| ==> IsWhiteSpace(s[i]))
  {
    var k := |s| - |t|;
    assert t == s[k..];
    forall i | k + |r| <= i < |s|
      ensures IsWhiteSpace(s[i])
    {
      assert s[i] == t[i - k];
    }
  }

  lemma TrimOfTrimmed(s: string)
    requires Trimmed(s)
    ensures Trim(s) == s
  {
  }

  /** Trimming twice is trimming once. */
  lemma TrimIdempotent(s: string)
    ensures Trim(Trim(s)) == Trim(s)
  {
    TrimOfTrimmed(Trim(s));
  }

  /** `p` occurs in `s` at index `i`. */
  predicate OccursAt(s: string, p: string, i: int) {
    0 <= i && i + |p| <= |s| && s[i..i + |p|] == p
  }

  predicate Occurs(s: string, p: string) {
    exists i :: 0 <= i <= |s| - |p| && OccursAt(s, p, i)
  }

  lemma OccursAfterFirst(s: string, p: string)
    requires |s| > 0 && !OccursAt(s, p, 0)
    ensures Occurs(s, p) <==> Occurs(s[1..], p)
  {
    var u := s[1..];
    if Occurs(s, p) {
      var i :| 0 <= i <= |s| - |p| && OccursAt(s, p, i);
      assert 1 <= i;
      assert u[i - 1..i - 1 + |p|] == s[i..i + |p|];
      assert OccursAt(u, p, i - 1);
    }
    if Occurs(u, p) {
      var i :| 0 <= i <= |u| - |p| && OccursAt(u, p, i);
      assert u[i..i + |p|] == s[i + 1..i + 1 + |p|];
      assert OccursAt(s, p, i + 1);
    }
  }

  /** `String.Replace(p, "")` with ordinal comparison: one left-to-right
      pass that deletes non-overlapping occurrences of `p`. Each deletion
      shortens the string by `|p|`. */
  function RemoveAll(s: string, p: string): (r: string)
    requires |p| > 0
    ensures |r| <= |s|
    ensures |r| == |s| ==> r == s
    decreases |s|
  {
    if |s| < |p| then
      s
    else if s[..|p|] == p then
      RemoveAll(s[|p|..], p)
    else
      [s[0]] + RemoveAll(s[1..], p)
  }

  /** The pass leaves `s` unchanged exactly when `p` does not occur in it. */
  lemma {:induction false} RemoveAllUnchanged(s: string, p: string)
    requires |p| > 0
    ensures RemoveAll(s, p) == s <==> !Occurs(s, p)
    decreases |s|
  {
    if |s| < |p| {
    } else if s[..|p|] == p {
      assert OccursAt(s, p, 0);
    } else {
      assert !OccursAt(s, p, 0);
      OccursAfterFirst(s, p);
      RemoveAllUnchanged(s[1..], p);
      assert s == [s[0]] + s[1..];
    }
  }

  /** The pass keeps everything before the first occurrence of `p`, drops
      that occurrence and carries on after it. With `RemoveAllUnchanged`
      for a string without `p`, this fixes the result. */
  lemma {:induction false} RemoveAllAtFirst(s: string, p: string, i: int)
    requires |p| > 0
    requires OccursAt(s, p, i)
    requires forall j :: 0 <= j < i ==> !OccursAt(s, p, j)
    ensures RemoveAll(s, p) == s[..i] + RemoveAll(s[i + |p|..], p)
    decreases i
  {
    if i == 0 {
      assert s[..|p|] == p;
    } else {
      var u := s[1..];
      RemoveAllSkipsFirst(s, p);
      forall j | 0 <= j < i - 1
        ensures !OccursAt(u, p, j)
      {
        OccursShift(s, p, j);
      }
      OccursShift(s, p, i - 1);
      RemoveAllAtFirst(u, p, i - 1);
      ConsSlices(s, i, |p|, RemoveAll(s[i + |p|..], p));
    }
  }

  lemma ConsSlices(s: string, i: int, n: int, tail: string)
    requires 1 <= i && 0 <= n && i + n <= |s|
    ensures s[1..][i - 1 + n..] == s[i + n..]
    ensures [s[0]] + (s[1..][..i - 1] + tail) == s[..i] + tail
  {
    assert [s[0]] + s[1..][..i - 1] == s[..i];
  }

  lemma OccursShift(s: string, p: string, j: int)
    requires |s| > 0 && 0 <= j
    ensures OccursAt(s[1..], p, j) <==> OccursAt(s, p, j + 1)
  {
    if j + |p| <= |s| - 1 {
      assert s[1..][j..j + |p|] == s[j + 1..j + 1 + |p|];
    }
  }

  /** Without `p` at the front, the pass keeps the first character. */
  lemma RemoveAllSkipsFirst(s: string, p: string)
    requires |p| > 0 && |p| <= |s| && !OccursAt(s, p, 0)
    ensures RemoveAll(s, p) == [s[0]] + RemoveAll(s[1..], p)
  {
    assert s[..|p|] != p;
  }
}
